=== FILE: README.md ===
# Sangam emergency-contact backend, modelled in Dafny

The Sangam backend lets users register, link other users as "family
members", and raise SOS alerts that record (and, in simulation, notify)
those family members. Each HTTP handler is a short deterministic rule over a
keyed document store with two collections, `users` and `sos_alerts`.

This project models that store as two maps (`Records.Store`) and each
handler as a pure function from a store and the request inputs to a
`Handled` value: an HTTP error (400, 403, 404 or 409, with the message the
backend sends) or a success payload, together with the store afterwards.

- `lists.dfy` (`Lists`): the Python list operations the handlers rely on:
  `list.remove` (first occurrence only, located by the first index holding
  the element), `in` and `append` on duplicate-free lists, and the filter
  that drops ids which no longer name a user.
- `records.dfy` (`Records`): users, alerts, contact snapshots, the store,
  errors and results.
- `auth.dfy` (`Auth`): user id generation, registration, login.
- `family.dfy` (`Family`): add, list and remove family members.
- `sos.dfy` (`Sos`): trigger an alert, alert history, resolve an alert.
- `invariants.dfy` (`Invariants`): properties of the whole store under every
  state-changing request, and the register / add / trigger flow end to end.

Non-deterministic inputs are parameters:

- the clock is a `Time` (a `nat`). The backend stores the instants as
  `datetime.isoformat()` strings, which drop the fractional seconds when the
  microsecond is zero. The history query compares those stored values; the
  model compares the instants;
- `random.choices` is a sequence of eight draws, each below 36, that index
  the alphabet `A`-`Z` followed by `0`-`9`;
- the id Firestore hands out for a new alert document is a parameter
  `alertId`. Lemmas that need it to be new say so.

A request field that the backend tests with `'f' not in data or not
data['f']` is an `Option<string>`. It counts as missing when it is `None`
or `Some("")`.

Behaviour of the handlers that is easy to overlook, and that the model keeps:

- Resolve does not look at the status, so a second resolve succeeds and
  overwrites `resolved_at` (`Sos.ResolveTwice`).
- Trigger reads location and message with `data.get(key, default)`, so the
  default is used only when the key is absent and a supplied empty string
  is stored as it is (`Sos.TriggerSos`).
- Add and remove also stamp an `updated_at` field on the user record
  (`User.updatedAt`), so an add followed by a remove restores the family
  list exactly but not the record's update stamp (`Family.AddThenRemove`).
- Registration writes with `set`, which overwrites a document with the same
  id. The id is random and never checked for collisions, so a colliding
  registration replaces the earlier user. The model does the same (a map
  update), and the end-to-end lemma assumes the two draws differ.

## Model

| member | source | states |
|---|---|---|
| Auth.GenerateUserId | api/auth.py:10-14 | the id is `SANGAM_` followed by eight characters from A-Z and 0-9, fifteen characters in all, the i-th suffix character being the i-th draw's letter |
| Auth.GenerateUserIdInjective | api/auth.py:10-14 | different random draws always give different ids |
| Auth.GenerateUserIdOnto | api/auth.py:10-14 | every string of the id format is produced by some draw, so the format predicate describes exactly the possible ids |
| Auth.AlphabetChar | api/auth.py:13 | draw k picks the k-th character of `ascii_uppercase + digits`: always an upper-case letter or digit, and a letter exactly for the first 26 draws |
| Auth.AlphabetIndex | api/auth.py:13 | every upper-case letter or digit has a position in `ascii_uppercase + digits` that maps back to it |
| Auth.FirstMissing | api/auth.py:24-30 | names the first of username, email, mobile_number that is missing or empty, in that order, and none exactly when all three are supplied |
| Auth.RegisterTakesEmail | api/auth.py:37-61 | a successful registration finds the email query empty beforehand and makes it non-empty afterwards |
| Auth.Register | api/auth.py:16-72 | a missing field gives 400 naming the first missing one; a taken email gives 409; both leave the store unchanged; success happens exactly when all fields are given and the email is new; the new record is stored under its own well-formed id with an empty family list, no last login, active, created now; the response echoes username, email and mobile; no other user and no alert changes |
| Auth.RegisterTwiceConflicts | api/auth.py:36-43 | after a successful registration, any complete registration with the same email is a 409 that changes nothing |
| Auth.Login | api/auth.py:80-122 | a missing or empty id gives 400 and an unknown id 404, both leaving the store unchanged; otherwise only that user's `last_login` changes and the reply carries the stored identity fields and family list |
| Auth.RegisterThenLogin | api/auth.py:46-72 | the id returned by a registration logs in, and reports the registered username and an empty family list |
| Family.AddFamilyMember | api/family.py:8-79 | errors come in the order: missing id 400, unknown user 404, unknown member 404, member already listed 409, and none changes the store; on success the list is the old list with the member appended, the reported total is the new length (old length + 1), the reply carries the member's identity, a duplicate-free list stays duplicate-free, and only this user's family list and update stamp change |
| Family.GetFamilyMembers | api/family.py:87-127 | unknown user gives 404; otherwise the entries are the stored ids, in order, that still name a user, each with that user's identity and active flag, and the count is their number, at most the stored list's length |
| Family.RemoveFamilyMember | api/family.py:136-188 | missing id 400, unknown user 404, id not in the list 404, none changing the store; the member need not exist as a user; on success exactly the first occurrence is removed, one copy fewer in the list, the total is the new length (old length − 1), and only this user's family list and update stamp change |
| Family.WithFamily | api/family.py:60-63 | the family-list update replaces that user's list and sets its update stamp, keeps the same user ids, and leaves every other user and all alerts alone |
| Family.WithFamilyTwice | api/family.py:60-63 | a later family-list write replaces an earlier one entirely, update stamp included |
| Family.AddThenRemove | api/family.py:57-63 | adding a new member and then removing it succeeds and restores the original family list exactly, leaving only a new update stamp |
| Family.AddTwiceConflicts | api/family.py:50-54 | adding the same member again is a 409 and changes nothing |
| Family.RemoveThenAbsent | api/family.py:164-174 | on a duplicate-free list a removed member no longer appears in the listing, every other contact that was listed still is, and the list stays duplicate-free |
| Records.Contacts | api/sos.py:40-52 | the contact snapshot has one entry per stored id that still names a user, in order, each that user's identity fields under the looked-up id |
| Lists.IndexOf | api/family.py:174 | the position found holds the element and no earlier position does |
| Lists.RemoveFirst | api/family.py:174 | `list.remove` shortens the list by one and deletes the first occurrence and nothing else |
| Lists.RemoveFirstCount | api/family.py:174 | `list.remove` takes away exactly one copy of the element |
| Lists.RemoveFirstAfterAppend | api/family.py:57 | removing an element that was just appended to a list not containing it gives back the list |
| Lists.RemoveFirstNoDup | api/family.py:174 | removing from a duplicate-free list removes the element completely and keeps the list duplicate-free |
| Lists.KeepPresent | api/family.py:113-121 | the ids kept are exactly those of the input that name a stored user, never more of them than the input has |
| Lists.KeepPresentCount | api/sos.py:40-52 | each resolving id is kept as many times as it occurs, dangling ids not at all |
| Lists.KeepPresentAppend | api/sos.py:40-52 | filtering a concatenation is concatenating the filtered parts, so kept ids stay in their stored order |
| Lists.KeepPresentNone | api/sos.py:40-52 | when no stored id names a user, nothing is kept |
| Lists.KeepPresentLength | api/sos.py:40-52 | the filter keeps as many ids as it is given exactly when every id names a user |
| Lists.KeepPresentAll | api/sos.py:40-52 | nothing is dropped exactly when every stored id names a user |
| Sos.TriggerSos | api/sos.py:9-111 | an unknown user gives 404 with no alert written; otherwise one alert is written under the new id with the user as owner, time now, status active, no resolution time, `Unknown` and `Emergency SOS triggered` taken only when location or message is absent (a supplied empty string is stored), the full stored id list as notified list and the resolvable contacts as snapshot (never longer); the response counts the snapshot; users are untouched and no other alert changes |
| Sos.TriggerWithoutFamily | api/sos.py:40-52 | a user none of whose family ids names a user (an empty list included) can still raise an alert, reported with no family members notified, while the alert keeps the raw id list |
| Sos.TriggerHistoryCount | api/sos.py:61-150 | the history entry of a new alert counts every stored family id, dangling ones included, while the trigger response counts only the ids that still name a user; the two counts agree exactly when every id resolves |
| Sos.TriggerOwnedBy | api/sos.py:55-68 | with a fresh alert id, a trigger adds the new alert to what the history query of its owner selects, and changes nothing for any other user |
| Sos.ResolveOwnedBy | api/sos.py:192-195 | a resolve changes no user's history selection |
| Sos.InsertPos | api/sos.py:138 | the insertion point of a newest-first list has every entry before it at least as new as the entry and every entry after it strictly older |
| Sos.Insert | api/sos.py:138 | inserting into a newest-first list keeps it newest first and adds exactly one copy of the entry and nothing else (as a multiset), keeping alert ids distinct |
| Sos.HistoryStep | api/sos.py:138-150 | examining one more stored alert extends the partial history by that alert exactly when the user owns it |
| Sos.GetSosHistory | api/sos.py:119-157 | an unknown user gives 404; otherwise the result lists exactly the alerts whose owner is the user, each once, as its summary, ordered non-increasing by trigger time, and the total is the list's length |
| Sos.ResolveSosAlert | api/sos.py:165-206 | an unknown alert gives 404 and another user's alert 403, both leaving the store unchanged; otherwise the alert's status becomes resolved and its resolution time is set, every other field and every other alert and all users stay as they were |
| Sos.ResolveTwice | api/sos.py:185-195 | resolving an already resolved alert succeeds again; it stays resolved and only the resolution time moves |
| Sos.ResolveIgnoresUsers | api/sos.py:173-189 | the outcome of a resolve does not depend on which users exist |
| Invariants.Apply | api/family.py:60-63 | login and the family operations never touch alerts; triggering and resolving never touch users (the cited family update stands for all six handlers' writes; each handler's own row cites its write) |
| Invariants.ApplyPreservesWf | api/auth.py:61 | every state-changing request keeps each user filed under its own id with a duplicate-free family list, and each alert with a consistent snapshot and a resolution time exactly when resolved (the cited registration `set` stands for all six writes; the per-handler rows below cite each one) |
| Invariants.RegisterPreservesWf | api/auth.py:49-61 | registration keeps the store well formed: the new record sits under its own id with an empty, hence duplicate-free, family list |
| Invariants.LoginPreservesWf | api/auth.py:107-110 | login keeps the store well formed |
| Invariants.AddPreservesWf | api/family.py:50-63 | adding keeps every family list duplicate-free |
| Invariants.RemovePreservesWf | api/family.py:174-180 | removing keeps every family list duplicate-free |
| Invariants.TriggerPreservesWf | api/sos.py:55-68 | a triggered alert is consistent: owner snapshot matches the owner, snapshot no longer than the notified list, active with no resolution time |
| Invariants.ResolvePreservesWf | api/sos.py:192-195 | resolving keeps every alert resolved exactly when it has a resolution time |
| Invariants.LoginReportsRequestedId | api/auth.py:112-115 | in a well-formed store the id login reports is the id logged in with |
| Invariants.ApplyEvolvesAlerts | api/sos.py:192-195 | no request deletes an alert or changes its owner, time, texts or snapshots, and none turns a resolved alert back to active |
| Invariants.ApplyKeepsUsers | api/auth.py:61 | no request deletes a user |
| Invariants.SnapshotMatchesListing | api/sos.py:40-52 | the contact snapshot stored with an alert is the family listing the user would get at that moment: same length, and the same contact at every position |
| Invariants.TriggerSingleContact | api/sos.py:40-68 | a user whose only family member exists notifies exactly that member, with default location and message |
| Invariants.RegisterAddTrigger | api/family.py:57-78 | two registrations, an add and a trigger: the add reports one member, and the alert snapshots the second user's registered identity with one member notified |

## Left out

- Flask routing, `request.get_json` and the `jsonify` envelope: the model
  returns a result value instead of a JSON response.
- Non-string field values and request bodies that are not JSON objects.
  Fields are modelled as strings. In the code, registration accepts a
  truthy non-string value (a number for `mobile_number`, say) and answers
  201, while a falsy one (0, false, an empty list) gets the 400 for a
  missing field. Trigger stores a JSON null location or message as null,
  without the default, because `data.get` only defaults an absent key. A
  list or string body without the key gets the 400 for the missing field.
- The `except Exception` handlers that answer 500. The abstract store
  cannot fail, a body is always present, and any string is a valid key, so
  the model never answers 500. In the code they cover:
  - store failures;
  - a body that is absent or not JSON: `request.get_json()` raises, and
    every handler, trigger included, answers 500;
  - a JSON `null` body: the `in` test on `None` raises in register, login,
    add and remove, while trigger's `or {}` treats it as an empty object;
  - ids the store cannot use as a document id. The Firestore client splits
    a document id on `/`, and a path with an odd number of parts raises
    `ValueError`. So a login with `user_id` `"a/b"` (api/auth.py:96) and an
    add of `family_member_id` `"a/b"` for an existing user
    (api/family.py:36) answer 500, where the model answers 404.
- Firestore itself. Collections are maps; the history query is an equality
  filter plus a descending sort on `triggered_at`. Firestore breaks ties by
  document id in the direction of the last sort, so alerts with equal
  trigger times come back by descending alert id. `Sos.GetSosHistory`
  leaves the order among equal trigger times open and promises only that
  times do not increase.
- The `print` notification transcripts of trigger and resolve. They are
  console output that only simulates delivery.
- `datetime.utcnow()` and `random.choices`: they are parameters. Resolve
  calls the clock twice, once for the stored `resolved_at` and once for the
  response. The model uses one instant for both.
- Id collisions: the model does not estimate their probability. A
  colliding registration overwrites, as in the code.
- Concurrency. Two concurrent adds or removes on one user can lose an
  update through read-modify-write. The model is sequential.
- `created_at` is kept as a `Time` and never read by any handler.
- app.py (application setup, blueprint registration, template and static
  serving, Firebase initialisation) and config.py (environment and
  credential loading) are not part of this model.

=== FILE: auth.dfy ===
/**
 Identity: user id generation, registration and login (api/auth.py).
 */
module Auth {
  import opened Records

  const Prefix: string := "SANGAM_"

  const SuffixLength: nat := 8

  /** Size of the alphabet `string.ascii_uppercase + string.digits`. */
  const AlphabetSize: nat := 36

  /** Membership in the alphabet: an upper-case ASCII letter or a digit. */
  predicate IsIdChar(c: char) {
    'A' <= c <= 'Z' || '0' <= c <= '9'
  }

  /** The `k`-th character of the alphabet: the letters A-Z, then 0-9. */
  function AlphabetChar(k: nat): (c: char)
    requires k < AlphabetSize
    ensures IsIdChar(c)
    ensures k < 26 <==> 'A' <= c <= 'Z'
  {
    if k < 26 then ('A' as int + k) as char else ('0' as int + (k - 26)) as char
  }

  /** The position of an alphabet character: the inverse of `AlphabetChar`. */
  function AlphabetIndex(c: char): (k: nat)
    requires IsIdChar(c)
    ensures k < AlphabetSize && AlphabetChar(k) == c
  {
    if 'A' <= c <= 'Z' then c as int - 'A' as int else 26 + (c as int - '0' as int)
  }

  /** The shape of every generated user id: the prefix, then eight alphabet
      characters. */
  predicate IsUserIdFormat(id: string) {
    && |id| == |Prefix| + SuffixLength
    && id[..|Prefix|] == Prefix
    && forall i :: |Prefix| <= i < |id| ==> IsIdChar(id[i])
  }

  /** The draws of `random.choices(alphabet, k=8)`: eight positions in the
      alphabet. */
  predicate ValidPicks(picks: seq<nat>) {
    |picks| == SuffixLength && forall i :: 0 <= i < |picks| ==> picks[i] < AlphabetSize
  }

  /** The user id built from the random draws `picks`. */
  function GenerateUserId(picks: seq<nat>): (id: UserId)
    requires ValidPicks(picks)
    ensures IsUserIdFormat(id)
    ensures |id| == 15
    ensures forall i :: 0 <= i < SuffixLength ==> id[|Prefix| + i] == AlphabetChar(picks[i])
  {
    Prefix + seq(SuffixLength, i requires 0 <= i < SuffixLength => AlphabetChar(picks[i]))
  }

  /** Different draws give different ids. */
  lemma GenerateUserIdInjective(p: seq<nat>, q: seq<nat>)
    requires ValidPicks(p) && ValidPicks(q)
    requires GenerateUserId(p) == GenerateUserId(q)
    ensures p == q
  {
    forall i | 0 <= i < SuffixLength
      ensures p[i] == q[i]
    {
      assert GenerateUserId(p)[|Prefix| + i] == GenerateUserId(q)[|Prefix| + i];
      assert AlphabetIndex(AlphabetChar(p[i])) == p[i];
    }
  }

  /** Reads the draws back off a well-formed id. */
  function PicksOf(id: string): (picks: seq<nat>)
    requires IsUserIdFormat(id)
    ensures ValidPicks(picks)
    ensures forall i :: 0 <= i < SuffixLength ==> AlphabetChar(picks[i]) == id[|Prefix| + i]
  {
    var picks := seq<nat>(SuffixLength, i requires 0 <= i < SuffixLength => AlphabetIndex(id[|Prefix| + i]));
    assert forall i :: 0 <= i < SuffixLength ==> picks[i] == AlphabetIndex(id[|Prefix| + i]);
    picks
  }

  /** Every id of the right shape is produced by some draw: the format
      predicate describes exactly the ids the generator can return. */
  lemma GenerateUserIdOnto(id: string)
    requires IsUserIdFormat(id)
    ensures ValidPicks(PicksOf(id)) && GenerateUserId(PicksOf(id)) == id
  {
    var picks := PicksOf(id);
    var g := GenerateUserId(picks);
    assert g[..|Prefix|] == id[..|Prefix|];
    assert g[|Prefix|..] == id[|Prefix|..] by {
      forall i | 0 <= i < SuffixLength
        ensures g[|Prefix|..][i] == id[|Prefix|..][i]
      {
        assert g[|Prefix| + i] == AlphabetChar(picks[i]);
      }
    }
    assert g == g[..|Prefix|] + g[|Prefix|..];
    assert id == id[..|Prefix|] + id[|Prefix|..];
  }

  // ---------------------------------------------------------------- register

  datatype RegisterRequest = RegisterRequest(
    username: Option<string>,
    email: Option<string>,
    mobileNumber: Option<string>)

  /** The body of a successful registration response. */
  datatype Registered = Registered(userId: UserId, username: string, email: string, mobileNumber: string)

  /** The first required field, in the order username, email, mobile number,
      that is missing or empty. */
  function FirstMissing(req: RegisterRequest): (f: Option<string>)
    ensures f == None <==> Supplied(req.username) && Supplied(req.email) && Supplied(req.mobileNumber)
    ensures f == Some("username") <==> !Supplied(req.username)
    ensures f == Some("email") <==> Supplied(req.username) && !Supplied(req.email)
    ensures f == Some("mobile_number") <==> Supplied(req.username) && Supplied(req.email) && !Supplied(req.mobileNumber)
  {
    if !Supplied(req.username) then Some("username")
    else if !Supplied(req.email) then Some("email")
    else if !Supplied(req.mobileNumber) then Some("mobile_number")
    else None
  }

  /** Some stored user already has this email. */
  predicate EmailTaken(users: map<UserId, User>, email: string) {
    exists k :: k in users && users[k].email == email
  }

  /** Registration. `picks` are the random draws for the id and `now` the
      creation time. */
  function Register(st: Store, req: RegisterRequest, picks: seq<nat>, now: Time): (h: Handled<Registered>)
    requires ValidPicks(picks)
    // validation: the first missing field is named, the store is untouched
    ensures FirstMissing(req).Some? ==>
      h == Handled(Err(BadRequest("Missing required field: " + FirstMissing(req).value)), st)
    // duplicate email
    ensures FirstMissing(req).None? && EmailTaken(st.users, req.email.value) ==>
      h == Handled(Err(Conflict("User with this email already exists")), st)
    ensures h.result.Ok? <==> FirstMissing(req).None? && !EmailTaken(st.users, req.email.value)
    ensures h.result.Ok? ==>
      var id := h.result.value.userId;
      && IsUserIdFormat(id)
      && id == GenerateUserId(picks)
      // the response echoes the request
      && h.result.value.username == req.username.value
      && h.result.value.email == req.email.value
      && h.result.value.mobileNumber == req.mobileNumber.value
      // a fresh record stored under its own id
      && h.store.users.Keys == st.users.Keys + {id}
      && h.store.users[id].userId == id
      && h.store.users[id].username == req.username.value
      && h.store.users[id].email == req.email.value
      && h.store.users[id].mobileNumber == req.mobileNumber.value
      && h.store.users[id].familyMembers == []
      && h.store.users[id].createdAt == now
      && h.store.users[id].lastLogin == None
      && h.store.users[id].isActive
      && h.store.users[id].updatedAt == None
      // nothing else changes
      && (forall k :: k in st.users && k != id ==> h.store.users[k] == st.users[k])
      && h.store.alerts == st.alerts
  {
    match FirstMissing(req)
    case Some(field) => Handled(Err(BadRequest("Missing required field: " + field)), st)
    case None =>
      if EmailTaken(st.users, req.email.value) then
        Handled(Err(Conflict("User with this email already exists")), st)
      else
        var id := GenerateUserId(picks);
        var user := User(id, req.username.value, req.email.value, req.mobileNumber.value,
                         [], now, None, true, None);
        Handled(Ok(Registered(id, user.username, user.email, user.mobileNumber)),
                st.(users := st.users[id := user]))
  }

  /** Registering the same email a second time is rejected with 409. */
  lemma RegisterTwiceConflicts(st: Store, req: RegisterRequest, req2: RegisterRequest,
                               picks: seq<nat>, picks2: seq<nat>, now: Time, now2: Time)
    requires ValidPicks(picks) && ValidPicks(picks2)
    requires Register(st, req, picks, now).result.Ok?
    requires FirstMissing(req2).None? && req2.email == req.email
    ensures var st' := Register(st, req, picks, now).store;
      Register(st', req2, picks2, now2) == Handled(Err(Conflict("User with this email already exists")), st')
  {
    var st' := Register(st, req, picks, now).store;
    var id := GenerateUserId(picks);
    assert id in st'.users && st'.users[id].email == req2.email.value;
  }

  /** A successful registration is exactly the step that makes its email
      taken: it was free before and is taken afterwards. */
  lemma RegisterTakesEmail(st: Store, req: RegisterRequest, picks: seq<nat>, now: Time)
    requires ValidPicks(picks)
    requires Register(st, req, picks, now).result.Ok?
    ensures !EmailTaken(st.users, req.email.value)
    ensures EmailTaken(Register(st, req, picks, now).store.users, req.email.value)
  {
    var id := GenerateUserId(picks);
    assert id in Register(st, req, picks, now).store.users;
  }

  // ------------------------------------------------------------------- login

  /** The body of a successful login response. */
  datatype LoggedIn = LoggedIn(
    userId: UserId,
    username: string,
    email: string,
    mobileNumber: string,
    familyMembers: seq<UserId>)

  /** Login by user id, stamping the login time `now`. */
  function Login(st: Store, userId: Option<string>, now: Time): (h: Handled<LoggedIn>)
    ensures !Supplied(userId) ==> h == Handled(Err(BadRequest("User ID is required")), st)
    ensures Supplied(userId) && userId.value !in st.users ==>
      h == Handled(Err(NotFound("User not found")), st)
    ensures h.result.Ok? <==> Supplied(userId) && userId.value in st.users
    ensures h.result.Ok? ==>
      var u := st.users[userId.value];
      // the reply reports the stored record
      && h.result.value == LoggedIn(u.userId, u.username, u.email, u.mobileNumber, u.familyMembers)
      // only last_login changes
      && h.store.alerts == st.alerts
      && h.store.users.Keys == st.users.Keys
      && h.store.users[userId.value] == u.(lastLogin := Some(now))
      && (forall k :: k in st.users && k != userId.value ==> h.store.users[k] == st.users[k])
  {
    if !Supplied(userId) then Handled(Err(BadRequest("User ID is required")), st)
    else if userId.value !in st.users then Handled(Err(NotFound("User not found")), st)
    else
      var u := st.users[userId.value];
      Handled(Ok(LoggedIn(u.userId, u.username, u.email, u.mobileNumber, u.familyMembers)),
              st.(users := st.users[userId.value := u.(lastLogin := Some(now))]))
  }

  /** A freshly registered user can log in with the returned id and has no
      family members yet. */
  lemma RegisterThenLogin(st: Store, req: RegisterRequest, picks: seq<nat>, now: Time, later: Time)
    requires ValidPicks(picks)
    requires Register(st, req, picks, now).result.Ok?
    ensures var r := Register(st, req, picks, now);
      var h := Login(r.store, Some(r.result.value.userId), later);
      && h.result.Ok?
      && h.result.value.userId == r.result.value.userId
      && h.result.value.username == r.result.value.username
      && h.result.value.familyMembers == []
  {
    var r := Register(st, req, picks, now);
    assert r.result.value.userId != "";
  }
}

=== FILE: family.dfy ===
/**
 The per-user family list (api/family.py): an ordered list of contact ids
 kept in the user's record, with add, list and remove.
 */
module Family {
  import opened Lists
  import opened Records

  /** The body of a successful add response. */
  datatype Added = Added(userId: UserId, familyMember: Contact, totalFamilyMembers: nat)

  /** One entry of the family listing: the contact's identity and its
      active flag. */
  datatype Member = Member(contact: Contact, isActive: bool)

  /** The body of a successful listing response. */
  datatype Listed = Listed(userId: UserId, familyMembers: seq<Member>, totalCount: nat)

  /** The body of a successful remove response. */
  datatype Removed = Removed(userId: UserId, removedMemberId: UserId, totalFamilyMembers: nat)

  /** The store with user `id`'s family list replaced by `family` and the
      record stamped as updated at `now`. */
  function WithFamily(st: Store, id: UserId, family: seq<UserId>, now: Time): (st': Store)
    requires id in st.users
    ensures st'.alerts == st.alerts
    ensures st'.users.Keys == st.users.Keys
    ensures st'.users[id] == st.users[id].(familyMembers := family, updatedAt := Some(now))
    ensures forall k :: k in st.users && k != id ==> st'.users[k] == st.users[k]
  {
    st.(users := st.users[id := st.users[id].(familyMembers := family, updatedAt := Some(now))])
  }

  /** A later family update overwrites an earlier one entirely. */
  lemma WithFamilyTwice(st: Store, id: UserId, f1: seq<UserId>, f2: seq<UserId>, t1: Time, t2: Time)
    requires id in st.users
    ensures WithFamily(WithFamily(st, id, f1, t1), id, f2, t2) == WithFamily(st, id, f2, t2)
  {
    var u := st.users[id];
    assert u.(familyMembers := f1, updatedAt := Some(t1)).(familyMembers := f2, updatedAt := Some(t2))
        == u.(familyMembers := f2, updatedAt := Some(t2));
  }

  /** Adds `memberId` to user `userId`'s family list at time `now`. */
  function AddFamilyMember(st: Store, userId: UserId, memberId: Option<string>, now: Time): (h: Handled<Added>)
    // error precedence: missing id, then unknown user, then unknown member,
    // then duplicate; every error leaves the store as it was
    ensures !Supplied(memberId) ==> h == Handled(Err(BadRequest("Family member ID is required")), st)
    ensures Supplied(memberId) && userId !in st.users ==> h == Handled(Err(NotFound("User not found")), st)
    ensures Supplied(memberId) && userId in st.users && memberId.value !in st.users ==>
      h == Handled(Err(NotFound("Family member not found")), st)
    ensures Supplied(memberId) && userId in st.users && memberId.value in st.users
            && memberId.value in st.users[userId].familyMembers ==>
      h == Handled(Err(Conflict("Family member already added")), st)
    ensures h.result.Err? ==> h.store == st
    ensures h.result.Ok? <==>
      && Supplied(memberId) && userId in st.users && memberId.value in st.users
      && memberId.value !in st.users[userId].familyMembers
    ensures h.result.Ok? ==> userId in h.store.users
    ensures h.result.Ok? ==>
      var old_ := st.users[userId].familyMembers;
      var new_ := h.store.users[userId].familyMembers;
      && new_ == old_ + [memberId.value]
      && h.result.value.totalFamilyMembers == |new_| == |old_| + 1
      && h.result.value.familyMember == ContactOf(memberId.value, st.users[memberId.value])
      && h.result.value.userId == userId
      && (NoDup(old_) ==> NoDup(new_))
      && h.store == WithFamily(st, userId, new_, now)
  {
    if !Supplied(memberId) then Handled(Err(BadRequest("Family member ID is required")), st)
    else if userId !in st.users then Handled(Err(NotFound("User not found")), st)
    else if memberId.value !in st.users then Handled(Err(NotFound("Family member not found")), st)
    else
      var family := st.users[userId].familyMembers;
      var id := memberId.value;
      if id in family then Handled(Err(Conflict("Family member already added")), st)
      else
        var family' := family + [id];
        AppendNoDup(family, id);
        Handled(Ok(Added(userId, ContactOf(id, st.users[id]), |family'|)),
                WithFamily(st, userId, family', now))
  }

  /** Lists user `userId`'s family members, skipping ids that no longer name
      a user. */
  function GetFamilyMembers(st: Store, userId: UserId): (r: Result<Listed>)
    ensures userId !in st.users ==> r == Err(NotFound("User not found"))
    ensures r.Ok? <==> userId in st.users
    ensures r.Ok? ==>
      var ids := st.users[userId].familyMembers;
      var live := KeepPresent(ids, st.users);
      && r.value.userId == userId
      && r.value.totalCount == |r.value.familyMembers| == |live| <= |ids|
      && (forall i :: 0 <= i < |live| ==>
            && live[i] in st.users
            && r.value.familyMembers[i]
               == Member(ContactOf(live[i], st.users[live[i]]), st.users[live[i]].isActive))
  {
    if userId !in st.users then Err(NotFound("User not found"))
    else
      // the same snapshot an SOS alert stores, with each contact's active flag
      var contacts := Contacts(st.users, st.users[userId].familyMembers);
      var members := seq(|contacts|, i requires 0 <= i < |contacts| =>
                         Member(contacts[i], st.users[contacts[i].userId].isActive));
      Ok(Listed(userId, members, |members|))
  }

  /** Removes the first occurrence of `memberId` from user `userId`'s family
      list at time `now`. */
  function RemoveFamilyMember(st: Store, userId: UserId, memberId: Option<string>, now: Time): (h: Handled<Removed>)
    ensures !Supplied(memberId) ==> h == Handled(Err(BadRequest("Family member ID is required")), st)
    ensures Supplied(memberId) && userId !in st.users ==> h == Handled(Err(NotFound("User not found")), st)
    ensures Supplied(memberId) && userId in st.users && memberId.value !in st.users[userId].familyMembers ==>
      h == Handled(Err(NotFound("Family member not found in your family list")), st)
    ensures h.result.Err? ==> h.store == st
    // the member need not exist as a user any more
    ensures h.result.Ok? <==>
      Supplied(memberId) && userId in st.users && memberId.value in st.users[userId].familyMembers
    ensures h.result.Ok? ==> userId in h.store.users
    ensures h.result.Ok? ==>
      var old_ := st.users[userId].familyMembers;
      var new_ := h.store.users[userId].familyMembers;
      var k := IndexOf(old_, memberId.value);
      && new_ == RemoveFirst(old_, memberId.value)
      && new_ == old_[..k] + old_[k + 1..]
      && multiset(new_) == multiset(old_) - multiset{memberId.value}
      && h.result.value == Removed(userId, memberId.value, |new_|)
      && |new_| == |old_| - 1
      && h.store == WithFamily(st, userId, new_, now)
  {
    if !Supplied(memberId) then Handled(Err(BadRequest("Family member ID is required")), st)
    else if userId !in st.users then Handled(Err(NotFound("User not found")), st)
    else
      var family := st.users[userId].familyMembers;
      var id := memberId.value;
      if id !in family then Handled(Err(NotFound("Family member not found in your family list")), st)
      else
        var family' := RemoveFirst(family, id);
        RemoveFirstCount(family, id);
        Handled(Ok(Removed(userId, id, |family'|)), WithFamily(st, userId, family', now))
  }

  /** Adding a new member and removing it again restores the family list
      exactly; only the update stamp remembers the round trip. */
  lemma AddThenRemove(st: Store, userId: UserId, memberId: string, t1: Time, t2: Time)
    requires AddFamilyMember(st, userId, Some(memberId), t1).result.Ok?
    ensures var st1 := AddFamilyMember(st, userId, Some(memberId), t1).store;
      var h := RemoveFamilyMember(st1, userId, Some(memberId), t2);
      && h.result.Ok?
      && h.result.value.totalFamilyMembers == |st.users[userId].familyMembers|
      && h.store == WithFamily(st, userId, st.users[userId].familyMembers, t2)
  {
    var family := st.users[userId].familyMembers;
    var st1 := AddFamilyMember(st, userId, Some(memberId), t1).store;
    assert st1 == WithFamily(st, userId, family + [memberId], t1);
    RemoveFirstAfterAppend(family, memberId);
    var h := RemoveFamilyMember(st1, userId, Some(memberId), t2);
    assert h.result.Ok?;
    assert h.store == WithFamily(st1, userId, family, t2);
    WithFamilyTwice(st, userId, family + [memberId], family, t1, t2);
  }

  /** Adding the same member twice: the second add is a 409 and changes
      nothing. */
  lemma AddTwiceConflicts(st: Store, userId: UserId, memberId: string, t1: Time, t2: Time)
    requires AddFamilyMember(st, userId, Some(memberId), t1).result.Ok?
    ensures var st1 := AddFamilyMember(st, userId, Some(memberId), t1).store;
      AddFamilyMember(st1, userId, Some(memberId), t2)
      == Handled(Err(Conflict("Family member already added")), st1)
  {
    var st1 := AddFamilyMember(st, userId, Some(memberId), t1).store;
    assert memberId in st1.users[userId].familyMembers;
  }

  /** On a duplicate-free list, a removed member no longer appears in the
      listing, and every other listed contact still does. */
  lemma RemoveThenAbsent(st: Store, userId: UserId, memberId: string, now: Time)
    requires userId in st.users && NoDup(st.users[userId].familyMembers)
    requires RemoveFamilyMember(st, userId, Some(memberId), now).result.Ok?
    ensures var st1 := RemoveFamilyMember(st, userId, Some(memberId), now).store;
      var listed := GetFamilyMembers(st1, userId);
      && listed.Ok?
      && (forall i :: 0 <= i < |listed.value.familyMembers| ==>
            listed.value.familyMembers[i].contact.userId != memberId)
      && (forall y :: y != memberId && y in KeepPresent(st.users[userId].familyMembers, st.users) ==>
            y in KeepPresent(st1.users[userId].familyMembers, st1.users))
      && NoDup(st1.users[userId].familyMembers)
  {
    var family := st.users[userId].familyMembers;
    var st1 := RemoveFamilyMember(st, userId, Some(memberId), now).store;
    RemoveFirstNoDup(family, memberId);
    var live := KeepPresent(st1.users[userId].familyMembers, st1.users);
    assert forall i :: 0 <= i < |live| ==> live[i] in live;
  }
}

=== FILE: invariants.dfy ===
/**
 Whole-store properties: what every state-changing request keeps true of
 the store, how stored alerts may evolve, and the end-to-end flow from
 registration to an SOS alert.
 */
module Invariants {
  import opened Lists
  import opened Records
  import Auth
  import Family
  import Sos

  /** A request that may change the store, with the parameters that stand
      in for the clock, the random id draws and the store's fresh alert id. */
  datatype Request =
    | RegisterReq(req: Auth.RegisterRequest, picks: seq<nat>, now: Time)
    | LoginReq(loginId: Option<string>, now: Time)
    | AddReq(userId: UserId, memberId: Option<string>, now: Time)
    | RemoveReq(userId: UserId, memberId: Option<string>, now: Time)
    | TriggerReq(userId: UserId, location: Option<string>, message: Option<string>, now: Time, alertId: AlertId)
    | ResolveReq(userId: UserId, alertId: AlertId, now: Time)

  /** The random draws of a registration are well formed. */
  predicate Admissible(r: Request) {
    r.RegisterReq? ==> Auth.ValidPicks(r.picks)
  }

  /** The store after handling `r`. */
  function Apply(st: Store, r: Request): (st': Store)
    requires Admissible(r)
    ensures r.LoginReq? || r.AddReq? || r.RemoveReq? ==> st'.alerts == st.alerts
    ensures r.TriggerReq? || r.ResolveReq? ==> st'.users == st.users
  {
    match r
    case RegisterReq(req, picks, now) => Auth.Register(st, req, picks, now).store
    case LoginReq(id, now) => Auth.Login(st, id, now).store
    case AddReq(u, m, now) => Family.AddFamilyMember(st, u, m, now).store
    case RemoveReq(u, m, now) => Family.RemoveFamilyMember(st, u, m, now).store
    case TriggerReq(u, loc, msg, now, a) => Sos.TriggerSos(st, u, loc, msg, now, a).store
    case ResolveReq(u, a, now) => Sos.ResolveSosAlert(st, u, a, now).store
  }

  /** A user record is filed under its own id and its family list has no
      duplicates. */
  predicate UserOk(id: UserId, u: User) {
    u.userId == id && NoDup(u.familyMembers)
  }

  /** An alert's snapshots agree with its raw data, and it carries a
      resolution time exactly when it is resolved. */
  predicate AlertOk(a: Alert) {
    && a.userDetails.userId == a.userId
    && |a.familyMembers| <= |a.familyNotified|
    && (a.status == Resolved <==> a.resolvedAt.Some?)
  }

  /** The store is well formed: every user and every alert is. */
  predicate Wf(st: Store) {
    && (forall id :: id in st.users ==> UserOk(id, st.users[id]))
    && (forall id :: id in st.alerts ==> AlertOk(st.alerts[id]))
  }

  /** Every state-changing request keeps the store well formed. */
  lemma ApplyPreservesWf(st: Store, r: Request)
    requires Admissible(r) && Wf(st)
    ensures Wf(Apply(st, r))
  {
    match r
    case RegisterReq(req, picks, now) => RegisterPreservesWf(st, req, picks, now);
    case LoginReq(id, now) => LoginPreservesWf(st, id, now);
    case AddReq(u, m, now) => AddPreservesWf(st, u, m, now);
    case RemoveReq(u, m, now) => RemovePreservesWf(st, u, m, now);
    case TriggerReq(u, loc, msg, now, a) => TriggerPreservesWf(st, u, loc, msg, now, a);
    case ResolveReq(u, a, now) => ResolvePreservesWf(st, u, a, now);
  }

  /** A registration files the new user under its own id with an empty list. */
  lemma RegisterPreservesWf(st: Store, req: Auth.RegisterRequest, picks: seq<nat>, now: Time)
    requires Auth.ValidPicks(picks) && Wf(st)
    ensures Wf(Auth.Register(st, req, picks, now).store)
  {
    var h := Auth.Register(st, req, picks, now);
    if h.result.Ok? {
      var id := h.result.value.userId;
      forall k | k in h.store.users
        ensures UserOk(k, h.store.users[k])
      {
        if k != id {
          assert h.store.users[k] == st.users[k];
        }
      }
    }
  }

  /** A login only stamps the login time. */
  lemma LoginPreservesWf(st: Store, userId: Option<string>, now: Time)
    requires Wf(st)
    ensures Wf(Auth.Login(st, userId, now).store)
  {
    var h := Auth.Login(st, userId, now);
    if h.result.Ok? {
      forall k | k in h.store.users
        ensures UserOk(k, h.store.users[k])
      {
        assert UserOk(k, st.users[k]);
      }
    }
  }

  /** An add appends an id that was not yet listed. */
  lemma AddPreservesWf(st: Store, userId: UserId, memberId: Option<string>, now: Time)
    requires Wf(st)
    ensures Wf(Family.AddFamilyMember(st, userId, memberId, now).store)
  {
    var h := Family.AddFamilyMember(st, userId, memberId, now);
    if h.result.Ok? {
      forall k | k in h.store.users
        ensures UserOk(k, h.store.users[k])
      {
        assert UserOk(k, st.users[k]);
      }
    }
  }

  /** A remove takes an element out of a duplicate-free list. */
  lemma RemovePreservesWf(st: Store, userId: UserId, memberId: Option<string>, now: Time)
    requires Wf(st)
    ensures Wf(Family.RemoveFamilyMember(st, userId, memberId, now).store)
  {
    var h := Family.RemoveFamilyMember(st, userId, memberId, now);
    if h.result.Ok? {
      RemoveFirstNoDup(st.users[userId].familyMembers, memberId.value);
      forall k | k in h.store.users
        ensures UserOk(k, h.store.users[k])
      {
        assert UserOk(k, st.users[k]);
      }
    }
  }

  /** A new alert is active, unresolved and snapshots its owner. */
  lemma TriggerPreservesWf(st: Store, userId: UserId, location: Option<string>, message: Option<string>,
                           now: Time, alertId: AlertId)
    requires Wf(st)
    ensures Wf(Sos.TriggerSos(st, userId, location, message, now, alertId).store)
  {
    var h := Sos.TriggerSos(st, userId, location, message, now, alertId);
    if h.result.Ok? {
      forall k | k in h.store.alerts
        ensures AlertOk(h.store.alerts[k])
      {
        if k != alertId {
          assert h.store.alerts[k] == st.alerts[k];
        }
      }
    }
  }

  /** A resolve sets the status and the resolution time together. */
  lemma ResolvePreservesWf(st: Store, userId: UserId, alertId: AlertId, now: Time)
    requires Wf(st)
    ensures Wf(Sos.ResolveSosAlert(st, userId, alertId, now).store)
  {
    var h := Sos.ResolveSosAlert(st, userId, alertId, now);
    if h.result.Ok? {
      forall k | k in h.store.alerts
        ensures AlertOk(h.store.alerts[k])
      {
        assert AlertOk(st.alerts[k]);
      }
    }
  }

  /** Login answers with the stored `user_id` field; in a well-formed store
      that is the id the caller logged in with. */
  lemma LoginReportsRequestedId(st: Store, userId: string, now: Time)
    requires Wf(st)
    requires Auth.Login(st, Some(userId), now).result.Ok?
    ensures Auth.Login(st, Some(userId), now).result.value.userId == userId
  {
    assert UserOk(userId, st.users[userId]);
  }

  /** How a stored alert may change: its owner, time, texts and snapshots
      are fixed, and once resolved it stays resolved. */
  predicate Evolves(a: Alert, a': Alert) {
    && a'.userId == a.userId
    && a'.triggeredAt == a.triggeredAt
    && a'.location == a.location
    && a'.message == a.message
    && a'.familyNotified == a.familyNotified
    && a'.userDetails == a.userDetails
    && a'.familyMembers == a.familyMembers
    && (a.status == Resolved ==> a'.status == Resolved)
  }

  /** A fresh alert id for a trigger request really is fresh. */
  predicate FreshAlertId(st: Store, r: Request) {
    r.TriggerReq? ==> r.alertId !in st.alerts
  }

  /** No request deletes an alert or changes it other than by resolving it;
      in particular no alert goes back from resolved to active. */
  lemma ApplyEvolvesAlerts(st: Store, r: Request)
    requires Admissible(r) && FreshAlertId(st, r)
    ensures st.alerts.Keys <= Apply(st, r).alerts.Keys
    ensures forall id :: id in st.alerts ==> Evolves(st.alerts[id], Apply(st, r).alerts[id])
  {
    match r
    case RegisterReq(req, picks, now) =>
    case LoginReq(id, now) =>
    case AddReq(u, m, now) =>
    case RemoveReq(u, m, now) =>
    case TriggerReq(u, loc, msg, now, a) =>
    case ResolveReq(u, a, now) =>
  }

  /** Users are never deleted. */
  lemma ApplyKeepsUsers(st: Store, r: Request)
    requires Admissible(r)
    ensures st.users.Keys <= Apply(st, r).users.Keys
  {
    match r
    case RegisterReq(req, picks, now) =>
    case LoginReq(id, now) =>
    case AddReq(u, m, now) =>
    case RemoveReq(u, m, now) =>
    case TriggerReq(u, loc, msg, now, a) =>
    case ResolveReq(u, a, now) =>
  }

  /** End to end: A and B register, A adds B, A triggers an SOS. The alert
      carries B's identity snapshot and reports one notified member. */
  lemma RegisterAddTrigger(st: Store, reqA: Auth.RegisterRequest, reqB: Auth.RegisterRequest,
                           pa: seq<nat>, pb: seq<nat>, t1: Time, t2: Time, t3: Time, t4: Time,
                           alertId: AlertId)
    requires Auth.ValidPicks(pa) && Auth.ValidPicks(pb) && pa != pb
    requires Auth.Register(st, reqA, pa, t1).result.Ok?
    requires Auth.Register(Auth.Register(st, reqA, pa, t1).store, reqB, pb, t2).result.Ok?
    ensures
      var ra := Auth.Register(st, reqA, pa, t1);
      var rb := Auth.Register(ra.store, reqB, pb, t2);
      var a := ra.result.value.userId;
      var b := rb.result.value.userId;
      var add := Family.AddFamilyMember(rb.store, a, Some(b), t3);
      var sos := Sos.TriggerSos(add.store, a, None, None, t4, alertId);
      && add.result.Ok?
      && add.result.value.totalFamilyMembers == 1
      && sos.result.Ok?
      && sos.result.value.familyMembersNotified == 1
      && sos.result.value.familyMembers
         == [Contact(b, reqB.username.value, reqB.email.value, reqB.mobileNumber.value)]
      && sos.store.alerts[alertId].location == "Unknown"
      && sos.store.alerts[alertId].message == "Emergency SOS triggered"
  {
    var ra := Auth.Register(st, reqA, pa, t1);
    var rb := Auth.Register(ra.store, reqB, pb, t2);
    var a := ra.result.value.userId;
    var b := rb.result.value.userId;
    assert a != b by {
      if a == b {
        Auth.GenerateUserIdInjective(pa, pb);
      }
    }
    var users := rb.store.users;
    assert a in users && users[a].familyMembers == [];
    assert b in users && users[b].username == reqB.username.value;
    assert users[b].email == reqB.email.value && users[b].mobileNumber == reqB.mobileNumber.value;
    var add := Family.AddFamilyMember(rb.store, a, Some(b), t3);
    assert add.result.Ok?;
    var users' := add.store.users;
    assert users'[a].familyMembers == [b];
    assert b in users' && users'[b] == users[b];
    TriggerSingleContact(add.store, a, b, t4, alertId);
  }

  /** The contact snapshot an alert stores is the family listing the user
      would see at that moment: the same contacts, in the same order. */
  lemma SnapshotMatchesListing(st: Store, userId: UserId, location: Option<string>, message: Option<string>,
                               now: Time, alertId: AlertId)
    requires userId in st.users
    ensures var a := Sos.TriggerSos(st, userId, location, message, now, alertId).store.alerts[alertId];
      var l := Family.GetFamilyMembers(st, userId).value.familyMembers;
      && |a.familyMembers| == |l|
      && forall i :: 0 <= i < |l| ==> a.familyMembers[i] == l[i].contact
  {
  }

  /** An SOS by a user whose only family member exists notifies exactly
      that member. */
  lemma TriggerSingleContact(st: Store, a: UserId, b: UserId, now: Time, alertId: AlertId)
    requires a in st.users && b in st.users && st.users[a].familyMembers == [b]
    ensures var sos := Sos.TriggerSos(st, a, None, None, now, alertId);
      && sos.result.Ok?
      && sos.result.value.familyMembersNotified == 1
      && sos.result.value.familyMembers == [ContactOf(b, st.users[b])]
      && sos.store.alerts[alertId].location == "Unknown"
      && sos.store.alerts[alertId].message == "Emergency SOS triggered"
  {
    assert KeepPresent([b], st.users) == [b];
  }
}

=== FILE: lists.dfy ===
/**
 Sequence helpers shared by the handlers: the Python list operations the
 backend relies on (`in`, `list.remove`) and the "keep only ids that still
 resolve to a document" filter used when contact lists are expanded.
 */
module Lists {

  /** No element occurs twice. */
  predicate NoDup<T(==)>(s: seq<T>) {
    forall i, j :: 0 <= i < j < |s| ==> s[i] != s[j]
  }

  /** Position of the first occurrence of `x` (Python's `list.index`). */
  function IndexOf<T(==)>(s: seq<T>, x: T): (i: nat)
    requires x in s
    ensures i < |s| && s[i] == x
    ensures forall j :: 0 <= j < i ==> s[j] != x
  {
    if s[0] == x then 0 else 1 + IndexOf(s[1..], x)
  }

  /** Python's `list.remove(x)`: deletes the first occurrence of `x` only. */
  function RemoveFirst<T(==)>(s: seq<T>, x: T): (r: seq<T>)
    requires x in s
    ensures |r| == |s| - 1
    ensures r == s[..IndexOf(s, x)] + s[IndexOf(s, x) + 1..]
  {
    if s[0] == x then s[1..]
    else
      var k := IndexOf(s[1..], x);
      var rest := RemoveFirst(s[1..], x);
      assert rest == s[1..][..k] + s[1..][k + 1..];
      assert s[..k + 1] == [s[0]] + s[1..][..k];
      assert s[k + 2..] == s[1..][k + 1..];
      [s[0]] + rest
  }

  /** `list.remove` takes away exactly one copy of `x` and keeps the rest. */
  lemma RemoveFirstCount<T>(s: seq<T>, x: T)
    requires x in s
    ensures multiset(RemoveFirst(s, x)) == multiset(s) - multiset{x}
  {
    var k := IndexOf(s, x);
    assert s == s[..k] + [x] + s[k + 1..];
  }

  /** The ids of `ids` that are keys of `m`, in their original order and
      with their original multiplicity. */
  function KeepPresent<K(!new), V>(ids: seq<K>, m: map<K, V>): (r: seq<K>)
    ensures |r| <= |ids|
    ensures forall x :: x in r <==> x in ids && x in m
  {
    if |ids| == 0 then []
    else
      assert ids == [ids[0]] + ids[1..];
      (if ids[0] in m then [ids[0]] else []) + KeepPresent(ids[1..], m)
  }

  /** Filtering distributes over concatenation: the relative order of the
      kept ids is the order of the input. */
  lemma {:induction false} KeepPresentAppend<K(!new), V>(a: seq<K>, b: seq<K>, m: map<K, V>)
    ensures KeepPresent(a + b, m) == KeepPresent(a, m) + KeepPresent(b, m)
  {
    if |a| == 0 {
      assert a + b == b;
    } else {
      var head := if a[0] in m then [a[0]] else [];
      assert (a + b)[0] == a[0];
      assert (a + b)[1..] == a[1..] + b;
      calc {
        KeepPresent(a + b, m);
        head + KeepPresent(a[1..] + b, m);
        { KeepPresentAppend(a[1..], b, m); }
        head + (KeepPresent(a[1..], m) + KeepPresent(b, m));
        (head + KeepPresent(a[1..], m)) + KeepPresent(b, m);
        KeepPresent(a, m) + KeepPresent(b, m);
      }
    }
  }

  /** The filter keeps every occurrence of a resolving id and none of the
      others: it is the input with the dangling ids taken out. */
  lemma {:induction false} KeepPresentCount<K(!new), V>(ids: seq<K>, m: map<K, V>, x: K)
    ensures multiset(KeepPresent(ids, m))[x] == if x in m then multiset(ids)[x] else 0
  {
    if |ids| == 0 {
    } else {
      assert ids == [ids[0]] + ids[1..];
      KeepPresentCount(ids[1..], m, x);
    }
  }

  /** Nothing is dropped exactly when every id resolves. */
  lemma {:induction false} KeepPresentAll<K(!new), V>(ids: seq<K>, m: map<K, V>)
    ensures KeepPresent(ids, m) == ids <==> forall i :: 0 <= i < |ids| ==> ids[i] in m
  {
    if |ids| == 0 {
    } else {
      var rest := KeepPresent(ids[1..], m);
      KeepPresentAll(ids[1..], m);
      if ids[0] in m {
        assert KeepPresent(ids, m) == [ids[0]] + rest;
        assert ids == [ids[0]] + ids[1..];
        assert (forall i :: 0 <= i < |ids| ==> ids[i] in m)
           <==> (forall i :: 0 <= i < |ids[1..]| ==> ids[1..][i] in m) by {
          if forall i :: 0 <= i < |ids[1..]| ==> ids[1..][i] in m {
            forall i | 0 <= i < |ids|
              ensures ids[i] in m
            {
              if i > 0 {
                assert ids[i] == ids[1..][i - 1];
              }
            }
          }
        }
      } else {
        assert KeepPresent(ids, m) == rest;
        assert |rest| <= |ids[1..]| < |ids|;
      }
    }
  }

  /** Nothing is kept when no id resolves. */
  lemma {:induction false} KeepPresentNone<K(!new), V>(ids: seq<K>, m: map<K, V>)
    requires forall i :: 0 <= i < |ids| ==> ids[i] !in m
    ensures KeepPresent(ids, m) == []
  {
    if |ids| != 0 {
      assert ids[0] !in m;
      KeepPresentNone(ids[1..], m);
    }
  }

  /** The filter keeps as many ids as it is given exactly when every id
      resolves. */
  lemma {:induction false} KeepPresentLength<K(!new), V>(ids: seq<K>, m: map<K, V>)
    ensures |KeepPresent(ids, m)| == |ids| <==> forall i :: 0 <= i < |ids| ==> ids[i] in m
  {
    if |ids| != 0 {
      KeepPresentLength(ids[1..], m);
      if forall i :: 0 <= i < |ids[1..]| ==> ids[1..][i] in m {
        if ids[0] in m {
          forall i | 0 <= i < |ids|
            ensures ids[i] in m
          {
            if i > 0 {
              assert ids[i] == ids[1..][i - 1];
            }
          }
        }
      } else {
        var j :| 0 <= j < |ids[1..]| && ids[1..][j] !in m;
        assert ids[j + 1] !in m;
      }
    }
  }

  /** `list.remove` undoes `list.append` when the appended element was new. */
  lemma {:induction false} RemoveFirstAfterAppend<T>(s: seq<T>, x: T)
    requires x !in s
    ensures RemoveFirst(s + [x], x) == s
  {
    if |s| == 0 {
    } else {
      assert (s + [x])[1..] == s[1..] + [x];
      RemoveFirstAfterAppend(s[1..], x);
      assert s == [s[0]] + s[1..];
    }
  }

  /** Appending a new element keeps a list duplicate-free. */
  lemma AppendNoDup<T>(s: seq<T>, x: T)
    requires x !in s
    ensures NoDup(s) ==> NoDup(s + [x])
  {
  }

  /** Removing from a duplicate-free list removes the element entirely and
      keeps the list duplicate-free. */
  lemma RemoveFirstNoDup<T>(s: seq<T>, x: T)
    requires NoDup(s) && x in s
    ensures NoDup(RemoveFirst(s, x))
    ensures x !in RemoveFirst(s, x)
    ensures forall y :: y in RemoveFirst(s, x) <==> y in s && y != x
  {
    var k := IndexOf(s, x);
    var r := RemoveFirst(s, x);
    forall i, j | 0 <= i < j < |r|
      ensures r[i] != r[j]
    {
      RemoveFirstAt(s, x, i);
      RemoveFirstAt(s, x, j);
    }
    forall y
      ensures y in r <==> y in s && y != x
    {
      if y in r {
        var i :| 0 <= i < |r| && r[i] == y;
        RemoveFirstAt(s, x, i);
      }
      if y in s && y != x {
        var i :| 0 <= i < |s| && s[i] == y;
        var i' := if i < k then i else i - 1;
        RemoveFirstAt(s, x, i');
      }
    }
  }

  /** Where each element of `RemoveFirst(s, x)` comes from in `s`. */
  lemma {:induction false} RemoveFirstAt<T>(s: seq<T>, x: T, i: nat)
    requires x in s && i < |s| - 1
    ensures RemoveFirst(s, x)[i] == s[if i < IndexOf(s, x) then i else i + 1]
  {
    if s[0] != x && i > 0 {
      RemoveFirstAt(s[1..], x, i - 1);
    }
  }
}

=== FILE: records.dfy ===
/**
 The document store behind every handler, as two keyed collections
 (`users` and `sos_alerts`), the records kept in them, and the outcome of a
 request: an HTTP error or a success payload, together with the store after
 the request.
 */
module Records {
  import opened Lists

  type UserId = string
  type AlertId = string

  /** A UTC timestamp. The backend stores `datetime.isoformat()` strings,
      which leave out the fractional seconds when they are zero; only their
      order is ever used, and the model keeps the instants themselves. */
  type Time = nat

  datatype Option<T> = None | Some(value: T)

  /** A stored user document. `updatedAt` is absent until the first change
      to the family list. */
  datatype User = User(
    userId: UserId,
    username: string,
    email: string,
    mobileNumber: string,
    familyMembers: seq<UserId>,
    createdAt: Time,
    lastLogin: Option<Time>,
    isActive: bool,
    updatedAt: Option<Time>)

  /** The public identity fields of a user, as copied into responses and
      alert snapshots. */
  datatype Contact = Contact(userId: UserId, username: string, email: string, mobileNumber: string)

  datatype Status = Active | Resolved

  /** A stored SOS alert document. */
  datatype Alert = Alert(
    userId: UserId,
    triggeredAt: Time,
    status: Status,
    location: string,
    message: string,
    familyNotified: seq<UserId>,
    userDetails: Contact,
    familyMembers: seq<Contact>,
    resolvedAt: Option<Time>)

  datatype Store = Store(users: map<UserId, User>, alerts: map<AlertId, Alert>)

  /** The error responses of the handlers, one per HTTP status the backend
      sends (400, 403, 404 and 409); each carries the backend's message. */
  datatype Error =
    | BadRequest(message: string)
    | Forbidden(message: string)
    | NotFound(message: string)
    | Conflict(message: string)

  datatype Result<T> = Ok(value: T) | Err(error: Error)

  /** What a handler produces: its response and the store afterwards. */
  datatype Handled<T> = Handled(result: Result<T>, store: Store)

  /** A request field that is present and non-empty (Python truthiness of a
      string value). */
  predicate Supplied(field: Option<string>) {
    field.Some? && field.value != ""
  }

  /** The identity fields of user `u`, reported under the id it was looked
      up by. */
  function ContactOf(id: UserId, u: User): (c: Contact) {
    Contact(id, u.username, u.email, u.mobileNumber)
  }

  /** Expands a list of contact ids into identity snapshots, silently
      skipping ids that no longer name a user. */
  function Contacts(users: map<UserId, User>, ids: seq<UserId>): (r: seq<Contact>)
    ensures |r| == |KeepPresent(ids, users)| <= |ids|
    ensures forall i :: 0 <= i < |r| ==>
      var id := KeepPresent(ids, users)[i];
      id in ids && id in users && r[i] == ContactOf(id, users[id])
  {
    var live := KeepPresent(ids, users);
    seq(|live|, i requires 0 <= i < |live| => ContactOf(live[i], users[live[i]]))
  }
}

=== FILE: sos.dfy ===
/**
 SOS alerts (api/sos.py): triggering an alert, listing a user's alert
 history newest first, and resolving an alert.
 */
module Sos {
  import opened Lists
  import opened Records

  const DefaultLocation: string := "Unknown"
  const DefaultMessage: string := "Emergency SOS triggered"

  /** The body of a successful trigger response. */
  datatype Triggered = Triggered(
    alertId: AlertId,
    userId: UserId,
    triggeredAt: Time,
    familyMembersNotified: nat,
    familyMembers: seq<Contact>,
    status: Status)

  /** `data.get(key, default)`: the supplied value, or the default when the
      key is absent. A supplied empty string is kept. */
  function OrDefault(field: Option<string>, default: string): (s: string) {
    match field
    case None => default
    case Some(v) => v
  }

  /** Triggers an SOS alert for `userId` at time `now`, stored under
      `alertId` (the id the store hands out for a new document). */
  function TriggerSos(st: Store, userId: UserId, location: Option<string>, message: Option<string>,
                      now: Time, alertId: AlertId): (h: Handled<Triggered>)
    ensures userId !in st.users ==> h == Handled(Err(NotFound("User not found")), st)
    ensures h.result.Ok? <==> userId in st.users
    ensures h.result.Ok? ==>
      var u := st.users[userId];
      var r := h.result.value;
      && alertId in h.store.alerts
      && var a := h.store.alerts[alertId];
      // the new alert
      && a.userId == userId
      && a.triggeredAt == now
      && a.status == Active
      && a.resolvedAt == None
      // `data.get(key, default)`: the default only when the key is absent
      && (location.None? ==> a.location == "Unknown")
      && (location.Some? ==> a.location == location.value)
      && (message.None? ==> a.message == "Emergency SOS triggered")
      && (message.Some? ==> a.message == message.value)
      && a.userDetails == ContactOf(userId, u)
      // the raw list is kept, the snapshot drops ids that no longer resolve
      && a.familyNotified == u.familyMembers
      && a.familyMembers == Contacts(st.users, u.familyMembers)
      && |a.familyMembers| <= |a.familyNotified|
      && (forall c :: c in a.familyMembers ==> c.userId in a.familyNotified && c.userId in st.users)
      // the response
      && r == Triggered(alertId, userId, now, |a.familyMembers|, a.familyMembers, Active)
      // exactly one alert is written, the users are untouched
      && h.store.users == st.users
      && h.store.alerts.Keys == st.alerts.Keys + {alertId}
      && (forall k :: k in st.alerts && k != alertId ==> h.store.alerts[k] == st.alerts[k])
      && (alertId !in st.alerts ==> |h.store.alerts| == |st.alerts| + 1)
  {
    if userId !in st.users then Handled(Err(NotFound("User not found")), st)
    else
      var u := st.users[userId];
      var contacts := Contacts(st.users, u.familyMembers);
      var alert := Alert(userId, now, Active, OrDefault(location, DefaultLocation),
                         OrDefault(message, DefaultMessage), u.familyMembers,
                         ContactOf(userId, u), contacts, None);
      assert forall c :: c in contacts ==> c.userId in u.familyMembers && c.userId in st.users by {
        forall c | c in contacts
          ensures c.userId in u.familyMembers && c.userId in st.users
        {
          var i :| 0 <= i < |contacts| && contacts[i] == c;
          assert KeepPresent(u.familyMembers, st.users)[i] in KeepPresent(u.familyMembers, st.users);
        }
      }
      Handled(Ok(Triggered(alertId, userId, now, |contacts|, contacts, Active)),
              st.(alerts := st.alerts[alertId := alert]))
  }

  /** A user with no resolvable family members (none at all, or only ids
      that no longer name a user) can still raise an alert; nobody is listed
      as notified, while the alert keeps the raw id list. */
  lemma TriggerWithoutFamily(st: Store, userId: UserId, location: Option<string>, message: Option<string>,
                             now: Time, alertId: AlertId)
    requires userId in st.users
    requires forall i :: 0 <= i < |st.users[userId].familyMembers| ==> st.users[userId].familyMembers[i] !in st.users
    ensures var h := TriggerSos(st, userId, location, message, now, alertId);
      && h.result.Ok?
      && h.result.value.familyMembersNotified == 0
      && h.result.value.familyMembers == []
      && h.store.alerts[alertId].familyNotified == st.users[userId].familyMembers
  {
    KeepPresentNone(st.users[userId].familyMembers, st.users);
  }

  /** A trigger adds the new alert to its owner's history and to no other
      user's. */
  lemma TriggerOwnedBy(st: Store, userId: UserId, location: Option<string>, message: Option<string>,
                       now: Time, alertId: AlertId, other: UserId)
    requires userId in st.users && alertId !in st.alerts
    ensures var alerts' := TriggerSos(st, userId, location, message, now, alertId).store.alerts;
      && OwnedBy(alerts', userId) == OwnedBy(st.alerts, userId) + {alertId}
      && (other != userId ==> OwnedBy(alerts', other) == OwnedBy(st.alerts, other))
  {
  }

  /** The history entry of a new alert counts every stored family id, while
      the trigger response counts only those that still name a user; the
      two agree exactly when every id resolves. */
  lemma TriggerHistoryCount(st: Store, userId: UserId, location: Option<string>, message: Option<string>,
                            now: Time, alertId: AlertId)
    requires userId in st.users
    ensures var h := TriggerSos(st, userId, location, message, now, alertId);
      var ids := st.users[userId].familyMembers;
      var s := SummaryOf(alertId, h.store.alerts[alertId]);
      && s.familyMembersNotified == |ids|
      && h.result.value.familyMembersNotified <= s.familyMembersNotified
      && (h.result.value.familyMembersNotified == s.familyMembersNotified
          <==> forall i :: 0 <= i < |ids| ==> ids[i] in st.users)
  {
    KeepPresentLength(st.users[userId].familyMembers, st.users);
  }

  // ----------------------------------------------------------------- history

  /** One entry of the alert history. */
  datatype Summary = Summary(
    alertId: AlertId,
    triggeredAt: Time,
    status: Status,
    location: string,
    message: string,
    familyMembersNotified: nat)

  /** The body of a successful history response. */
  datatype History = History(userId: UserId, alerts: seq<Summary>, totalAlerts: nat)

  /** The history entry of alert `a` stored under `id`. Its notified count
      is the length of the raw id list, dangling ids included. */
  function SummaryOf(id: AlertId, a: Alert): (s: Summary) {
    Summary(id, a.triggeredAt, a.status, a.location, a.message, |a.familyNotified|)
  }

  /** Ordered by trigger time, newest first. */
  predicate NewestFirst(s: seq<Summary>) {
    forall i, j :: 0 <= i < j < |s| ==> s[i].triggeredAt >= s[j].triggeredAt
  }

  /** No alert is listed twice. */
  predicate DistinctAlerts(s: seq<Summary>) {
    forall i, j :: 0 <= i < j < |s| ==> s[i].alertId != s[j].alertId
  }

  /** The alerts of the store that belong to `userId`. */
  function OwnedBy(alerts: map<AlertId, Alert>, userId: UserId): (ids: set<AlertId>) {
    set id | id in alerts && alerts[id].userId == userId
  }

  /** Where `x` goes in a newest-first list: after every entry at least as
      new as it. */
  function InsertPos(s: seq<Summary>, x: Summary): (k: nat)
    requires NewestFirst(s)
    ensures k <= |s|
    ensures forall i :: 0 <= i < k ==> s[i].triggeredAt >= x.triggeredAt
    ensures forall i :: k <= i < |s| ==> s[i].triggeredAt < x.triggeredAt
  {
    if |s| == 0 || s[0].triggeredAt < x.triggeredAt then 0
    else 1 + InsertPos(s[1..], x)
  }

  /** Inserts `x` into a newest-first list, keeping it newest first. */
  function Insert(s: seq<Summary>, x: Summary): (r: seq<Summary>)
    requires NewestFirst(s)
    ensures NewestFirst(r)
    ensures |r| == |s| + 1
    ensures multiset(r) == multiset(s) + multiset{x}
    ensures forall y :: y in r <==> y in s || y == x
    ensures (forall i :: 0 <= i < |s| ==> s[i].alertId != x.alertId) && DistinctAlerts(s) ==> DistinctAlerts(r)
  {
    var k := InsertPos(s, x);
    var r := s[..k] + [x] + s[k..];
    InsertShape(s, x, k, r);
    assert s == s[..k] + s[k..];
    r
  }

  /** The slice form of an insertion at a position that respects the order. */
  lemma InsertShape(s: seq<Summary>, x: Summary, k: nat, r: seq<Summary>)
    requires NewestFirst(s) && k <= |s|
    requires forall i :: 0 <= i < k ==> s[i].triggeredAt >= x.triggeredAt
    requires forall i :: k <= i < |s| ==> s[i].triggeredAt < x.triggeredAt
    requires r == s[..k] + [x] + s[k..]
    ensures NewestFirst(r)
    ensures (forall i :: 0 <= i < |s| ==> s[i].alertId != x.alertId) && DistinctAlerts(s) ==> DistinctAlerts(r)
  {
    assert forall i :: 0 <= i < k ==> r[i] == s[i];
    assert r[k] == x;
    assert forall i :: k < i < |r| ==> r[i] == s[i - 1];
  }

  /** The alert ids of a history, in order. */
  function Ids(s: seq<Summary>): (ids: seq<AlertId>) {
    seq(|s|, i requires 0 <= i < |s| => s[i].alertId)
  }

  /** `acc` is the history of `userId` restricted to the alert ids in
      `seen`: every owned alert among them exactly once, newest first. */
  ghost predicate HistoryOver(alerts: map<AlertId, Alert>, userId: UserId, seen: set<AlertId>, acc: seq<Summary>) {
    && NewestFirst(acc)
    && DistinctAlerts(acc)
    && (forall i :: 0 <= i < |acc| ==>
          && acc[i].alertId in seen
          && acc[i].alertId in OwnedBy(alerts, userId)
          && acc[i] == SummaryOf(acc[i].alertId, alerts[acc[i].alertId]))
    && (forall id :: id in seen && id in OwnedBy(alerts, userId) ==> id in Ids(acc))
  }

  /** Looking at one more alert extends the history by that alert exactly
      when the user owns it. */
  lemma HistoryStep(alerts: map<AlertId, Alert>, userId: UserId, seen: set<AlertId>, acc: seq<Summary>, id: AlertId)
    requires HistoryOver(alerts, userId, seen, acc)
    requires id in alerts && id !in seen
    ensures alerts[id].userId == userId ==>
      HistoryOver(alerts, userId, seen + {id}, Insert(acc, SummaryOf(id, alerts[id])))
    ensures alerts[id].userId != userId ==> HistoryOver(alerts, userId, seen + {id}, acc)
  {
    if alerts[id].userId == userId {
      var x := SummaryOf(id, alerts[id]);
      var acc' := Insert(acc, x);
      forall i | 0 <= i < |acc'|
        ensures acc'[i].alertId in seen + {id} && acc'[i].alertId in OwnedBy(alerts, userId)
        ensures acc'[i] == SummaryOf(acc'[i].alertId, alerts[acc'[i].alertId])
      {
        assert acc'[i] in acc';
      }
      forall id' | id' in seen + {id} && id' in OwnedBy(alerts, userId)
        ensures id' in Ids(acc')
      {
        var y := if id' == id then x else acc[IndexOf(Ids(acc), id')];
        assert y in acc' && y.alertId == id';
        var j :| 0 <= j < |acc'| && acc'[j] == y;
        assert Ids(acc')[j] == id';
      }
    }
  }

  /** The alert history of `userId`: 404 for an unknown user, otherwise
      every alert the user owns, each once, newest first. Only the alert's
      owner field is compared; the store is not changed. */
  method GetSosHistory(st: Store, userId: UserId) returns (r: Result<History>)
    ensures userId !in st.users ==> r == Err(NotFound("User not found"))
    ensures r.Ok? <==> userId in st.users
    ensures r.Ok? ==>
      var s := r.value.alerts;
      && r.value.userId == userId
      && r.value.totalAlerts == |s|
      && NewestFirst(s)
      && DistinctAlerts(s)
      && (forall i :: 0 <= i < |s| ==>
            s[i].alertId in OwnedBy(st.alerts, userId) && s[i] == SummaryOf(s[i].alertId, st.alerts[s[i].alertId]))
      && (forall id :: id in OwnedBy(st.alerts, userId) <==> id in Ids(s))
  {
    if userId !in st.users {
      return Err(NotFound("User not found"));
    }
    var remaining := st.alerts.Keys;
    var acc: seq<Summary> := [];
    while remaining != {}
      invariant remaining <= st.alerts.Keys
      invariant HistoryOver(st.alerts, userId, st.alerts.Keys - remaining, acc)
      decreases remaining
    {
      var id :| id in remaining;
      HistoryStep(st.alerts, userId, st.alerts.Keys - remaining, acc, id);
      if st.alerts[id].userId == userId {
        acc := Insert(acc, SummaryOf(id, st.alerts[id]));
      }
      remaining := remaining - {id};
      assert st.alerts.Keys - remaining == (st.alerts.Keys - (remaining + {id})) + {id};
    }
    assert st.alerts.Keys - remaining == st.alerts.Keys;
    forall id | id in Ids(acc)
      ensures id in OwnedBy(st.alerts, userId)
    {
      var i :| 0 <= i < |acc| && Ids(acc)[i] == id;
    }
    return Ok(History(userId, acc, |acc|));
  }

  // ----------------------------------------------------------------- resolve

  /** The body of a successful resolve response. */
  datatype ResolvedAlert = ResolvedAlert(alertId: AlertId, resolvedAt: Time)

  /** Resolves alert `alertId` on behalf of `userId` at time `now`. */
  function ResolveSosAlert(st: Store, userId: UserId, alertId: AlertId, now: Time): (h: Handled<ResolvedAlert>)
    ensures alertId !in st.alerts ==> h == Handled(Err(NotFound("SOS alert not found")), st)
    ensures alertId in st.alerts && st.alerts[alertId].userId != userId ==>
      h == Handled(Err(Forbidden("Unauthorized access to SOS alert")), st)
    ensures h.result.Ok? <==> alertId in st.alerts && st.alerts[alertId].userId == userId
    ensures h.result.Ok? ==>
      && h.result.value == ResolvedAlert(alertId, now)
      && h.store.users == st.users
      && h.store.alerts.Keys == st.alerts.Keys
      && h.store.alerts[alertId] == st.alerts[alertId].(status := Resolved, resolvedAt := Some(now))
      && (forall k :: k in st.alerts && k != alertId ==> h.store.alerts[k] == st.alerts[k])
  {
    if alertId !in st.alerts then Handled(Err(NotFound("SOS alert not found")), st)
    else if st.alerts[alertId].userId != userId then
      Handled(Err(Forbidden("Unauthorized access to SOS alert")), st)
    else
      var a := st.alerts[alertId];
      Handled(Ok(ResolvedAlert(alertId, now)),
              st.(alerts := st.alerts[alertId := a.(status := Resolved, resolvedAt := Some(now))]))
  }

  /** A resolve moves no alert into or out of any user's history. */
  lemma ResolveOwnedBy(st: Store, userId: UserId, alertId: AlertId, now: Time, other: UserId)
    ensures OwnedBy(ResolveSosAlert(st, userId, alertId, now).store.alerts, other) == OwnedBy(st.alerts, other)
  {
  }

  /** Resolving is not guarded by the current status: a second resolve
      succeeds too, the alert stays resolved and only the resolution time
      moves. */
  lemma ResolveTwice(st: Store, userId: UserId, alertId: AlertId, t1: Time, t2: Time)
    requires ResolveSosAlert(st, userId, alertId, t1).result.Ok?
    ensures var st1 := ResolveSosAlert(st, userId, alertId, t1).store;
      var h := ResolveSosAlert(st1, userId, alertId, t2);
      && h.result.Ok?
      && h.store.alerts[alertId].status == Resolved
      && h.store.alerts[alertId].resolvedAt == Some(t2)
      && h.store == ResolveSosAlert(st, userId, alertId, t2).store
  {
    var a := st.alerts[alertId];
    assert a.(status := Resolved, resolvedAt := Some(t1)).(status := Resolved, resolvedAt := Some(t2))
        == a.(status := Resolved, resolvedAt := Some(t2));
  }

  /** Resolve never looks at the users collection: its outcome is the same
      whatever users exist. */
  lemma ResolveIgnoresUsers(st: Store, users: map<UserId, User>, userId: UserId, alertId: AlertId, now: Time)
    ensures ResolveSosAlert(st.(users := users), userId, alertId, now).result
         == ResolveSosAlert(st, userId, alertId, now).result
  {
  }
}
